=== FILE: README.md ===
# Auto-chat driver for a Gaianet node: a Dafny model

The program (`main.js`) runs an endless conversation: each turn takes the next
topic from a fixed list, asks a Groq model for a "user" question about it, and
sends that question to a Gaianet node's `/v1/chat/completions` endpoint,
reading the answer as a server-sent-event stream. This project models the
three pieces of logic inside that plumbing and proves what they guarantee:

- **Stream decoder** (`stream_decoder.dfy`, with `lines.dfy` for `split("\n")`):
  chunks of already-decoded text go into a carry-over buffer; every line that a
  newline completes is processed once, in order; a `data: ` line's payload goes
  through the parameter `extract` (standing for `JSON.parse` plus
  `choices[0]?.delta?.content`, `None` when either fails); `[DONE]` is skipped;
  non-empty content is appended to the reply and written out.
- **Retry controller** (`retry_controller.dfy`): `chatWithGaianet`'s
  `for` loop over `retryCount` attempts. The network is the function
  `network: nat -> Attempt`; every requested sleep is recorded in milliseconds.
  The result is `Reply(text)`, `Thrown(error)` or `Undefined`, with the number of
  attempts made.
- **Conversation driver** (`conversation_driver.dfy`, `auth_token.dfy`): the
  token read and startup check, then the turn loop over
  `(interactionCount, topicIndex)`, modelled by its finite prefixes.

Behaviour of the code that the model follows and a reader might not expect:

- A 401 is thrown inside the `try` and caught by the same `catch` as every other
  error, so it is retried after the 5-second pause; it is not fatal
  (`RetryController.AuthFailureIsRetried`).
- The busy backoff (status 429 or 504) is `2^i` seconds with no ceiling. A busy
  answer on the last attempt still sleeps, then the loop ends and the function
  returns `undefined`; it does not throw (`RetryController.AllBusyFallsThrough`).
  The driver treats that `undefined` as a completed turn
  (`ConversationDriver.UndefinedReplyAdvances`).
- Waits strictly increase only among busy answers. A thrown error after long busy
  waits brings the wait back down to 5 seconds (`RetryController.WaitsCanShrink`),
  and a busy answer at attempt 1 or 2 after an error waits 2 or 4 seconds, less
  than the 5 before it.
- Fragments are written to the console as they are decoded, before the attempt
  knows whether its stream will end cleanly. When a stream breaks, what it already
  wrote stays on the console, and the retry's answer is written after it, while
  the returned reply holds only the retry's fragments
  (`RetryController.PartialAnswerStaysOnScreen`).
- `[DONE]` does not end decoding; only the end of the stream does
  (`StreamDecoder.DoneDoesNotStop`).
- The decoder works on text: `TextDecoder.decode(chunk)` is called without
  `{stream: true}`, so a multi-byte character split across chunks is not
  reassembled, and the model starts after decoding.

## Model

| member | source | states |
|---|---|---|
| Lines.Split | main.js:191 | the pieces of `split("\n")`: at least one, none containing a newline |
| Lines.JoinSplit | main.js:191 | joining the pieces with newlines gives back the text: splitting loses and invents nothing |
| Lines.SplitJoin | main.js:191 | splitting newline-joined newline-free pieces gives back exactly those pieces |
| Lines.SplitLine | main.js:191 | a newline-free line followed by a newline splits off as the first piece, ahead of the pieces of the rest |
| Lines.SplitAppend | main.js:190-191 | splitting `buffer + chunk` equals splitting both and fusing the last piece of one with the first of the other |
| Lines.AfterLastNewline | main.js:192 | the kept buffer: a newline-free suffix of the text that is either all of it or preceded by a newline |
| Lines.LastSplit | main.js:191-192 | `lines.pop()` is exactly the text after the last newline |
| StreamDecoder.Fragment | main.js:195-205 | a line yields content exactly when it starts with `data: `, its payload is not `[DONE]`, and extraction gives a non-empty string; the content is then exactly what extraction gave for the payload |
| StreamDecoder.Emitted | main.js:194-210 | the fragments of a run of complete lines: never more than the lines, and never empty strings |
| StreamDecoder.ProcessLines | main.js:194-210 | processing lines one by one appends exactly their fragments to the output and their concatenation to the reply, leaving the buffer alone |
| StreamDecoder.EmittedAppend | main.js:194-210 | the fragments of two runs of lines are the first run's followed by the second's |
| StreamDecoder.Step | main.js:188-210 | one chunk: the buffer becomes the text after the last newline of buffer plus chunk, and exactly the lines that chunk completes are processed, in order, their fragments appended to output and reply |
| StreamDecoder.StepConsistent | main.js:188-210 | one chunk keeps the decoder in step with all text received so far: buffer after the last newline, output and reply from exactly the complete lines |
| StreamDecoder.Decode | main.js:188-211 | after any chunks, the buffer is the text after the last newline of everything received, and output and reply are the fragments of every complete line, each once, in order |
| StreamDecoder.ChunkBoundaryInvariance | main.js:188-213 | any two chunkings of the same text leave the decoder in the same state with the same reply |
| StreamDecoder.TrailingPieceIgnored | main.js:188-213 | text with no newline at the end of the stream is never processed: output and reply do not change |
| StreamDecoder.DecodeStream | main.js:188-213 | for any chunking of a stream of newline-terminated lines, the output is exactly the fragments of those lines |
| StreamDecoder.SkippedLineIsolated | main.js:199-208 | a line yielding nothing (malformed, no content, `[DONE]`, not data) leaves the fragments of the surrounding lines unchanged |
| StreamDecoder.MalformedPayloadSkipped | main.js:199-208 | a `data: ` line whose payload does not parse or lacks content yields nothing |
| StreamDecoder.DoneDoesNotStop | main.js:195-197 | `data: [DONE]` contributes nothing and the lines after it are still processed |
| StreamDecoder.NonDataLineIgnored | main.js:195 | a line not starting with `data: ` yields nothing |
| StreamDecoder.ParisScenario | main.js:183-213 | a content line for "Paris" followed by `data: [DONE]` yields the reply "Paris" under every chunking |
| RetryController.Classify | main.js:162-213 | busy exactly for 429/504; a reply exactly for a 2xx answer whose stream ends cleanly, and then the reply is that stream's decoded text; an authentication error exactly for 401 |
| RetryController.RunFrom | main.js:130-221 | from iteration i: attempts within the budget, earlier attempts all failed, the recorded waits match each attempt's verdict, and the result is the last attempt's reply, the last attempt's error only at the final attempt, or undefined after a busy final attempt |
| RetryController.ChatWithGaianet | main.js:125-222 | no attempt when the budget is 0 or less, otherwise between 1 and `retryCount`; a reply is exactly the successful attempt's own decoded stream; a throw only from the final attempt; `undefined` only after a busy final attempt; one wait per retried attempt |
| RetryController.FirstSuccessWins | main.js:185-213 | the first successful attempt ends the call with exactly its own stream's reply, whatever earlier failed attempts streamed |
| RetryController.AllThrownExhausts | main.js:214-219 | when every attempt throws: exactly `retryCount` attempts, the last error rethrown, a 5-second pause between attempts |
| RetryController.AllBusyFallsThrough | main.js:168-177 | when every attempt is busy: exactly `retryCount` attempts, waits of 1, 2, 4, ... seconds, then `undefined` |
| RetryController.AuthFailureIsRetried | main.js:162-219 | a 401 on the first of two or more attempts is followed by the 5-second pause and another attempt |
| RetryController.SingleAttempt | main.js:130 | a budget of 1 makes exactly one attempt |
| RetryController.BusyDelayGrows | main.js:169 | the busy delay strictly increases with the attempt number and exceeds j seconds at attempt j |
| RetryController.BusyDelayUnbounded | main.js:169 | no constant ceiling bounds the busy delay: for every ceiling some attempt requests a longer delay |
| RetryController.Printed | main.js:162-213 | what one attempt writes: the decoded fragments of a 2xx answer, also when reading its stream later throws; nothing for a failed fetch, a busy answer or a 401 |
| RetryController.BrokenStreamThrows | main.js:188-214 | a 2xx stream whose reading throws fails the attempt with that error, after its fragments were written |
| RetryController.ReplyEndsOutput | main.js:204-213 | the console output of a call that returns a reply ends with the successful attempt's fragments, which concatenate to the reply |
| RetryController.PartialAnswerStaysOnScreen | main.js:188-220 | a broken stream followed by a clean one: two attempts, the reply is the second stream's alone, and the console shows the first stream's fragments followed by the second's |
| RetryController.BusyWaitsIncrease | main.js:168-175 | within a call, a later busy wait is longer than an earlier one |
| RetryController.WaitsCanShrink | main.js:169-219 | with a budget above five, four busy answers followed by dropped connections request waits of 1, 2, 4, 8 and then 5 seconds |
| AuthToken.Trim | main.js:69 | the trimmed token is a contiguous piece of the variable, everything removed is white space, and it neither starts nor ends with white space |
| AuthToken.TrimIdempotent | main.js:69 | trimming a trimmed token changes nothing |
| AuthToken.TrimEmpty | main.js:69 | trimming gives the empty string exactly when the variable is all white space |
| AuthToken.GetAuthToken | main.js:67-74 | null exactly when the variable is unset, otherwise the trimmed variable |
| AuthToken.Startup | main.js:229-232 | startup succeeds exactly when the variable is set and not all white space, and then yields a non-empty trimmed token |
| ConversationDriver.TopicSlot | main.js:242 | `topicIndex % TOPICS.length` is always a position inside the topic list |
| ConversationDriver.SlotPeriodic | main.js:242 | raising `topicIndex` by the list's length selects the same position |
| ConversationDriver.TopicCycles | main.js:242 | the selected topic repeats every five increments of `topicIndex` |
| ConversationDriver.Step | main.js:239-258 | a turn asks with the current `topicIndex`, so about the topic the counters select; it completes exactly when the user message arrives and the assistant call does not throw; then both counters grow by 1 and it pauses 10 s, otherwise the counters are unchanged and it pauses 15 s |
| ConversationDriver.StepIsAdvance | main.js:239-258 | a turn's record depends on its user message and network only through whether its body completed |
| ConversationDriver.Run | main.js:238-259 | one record per turn, each recording its own outcome; at the end both counters have grown by the number of completed turns |
| ConversationDriver.RunChain | main.js:238-259 | each record of the loop starts from the counters the previous record left |
| ConversationDriver.Drive | main.js:238-259 | the loop over the turns: one record per turn, turn k completed exactly when its user message arrived and its assistant call did not throw, and both counters grown by the number of completed turns |
| ConversationDriver.DriveChain | main.js:238-259 | each turn starts from the counters the previous turn left |
| ConversationDriver.CountersTrackCompletedTurns | main.js:247-250 | after any number of turns, each counter has grown by exactly the number of completed turns |
| ConversationDriver.CountersStayInStep | main.js:235-250 | from the start, `interactionCount` is always `topicIndex + 1` |
| ConversationDriver.RunTopic | main.js:242-250 | turn k asks with `topicIndex` equal to its start value plus the number of turns completed before it |
| ConversationDriver.TopicOfTurn | main.js:242-250 | the same for the turns of a run: the topic moves on by one per completed turn and only then |
| ConversationDriver.EveryTurnCompletes | main.js:242-250 | when every turn completes, turn k from the start asks with `topicIndex` k, the topic at position k mod 5 |
| ConversationDriver.RunAllCompleted | main.js:242-250 | in the loop over outcomes, when every turn completes, turn k asks with `topicIndex` raised by exactly k |
| ConversationDriver.RunFailedRetries | main.js:254-257 | in the loop over outcomes, a turn that throws leaves the counters alone and the next turn asks with the same `topicIndex` |
| ConversationDriver.FailedTurnRetriesTopic | main.js:254-257 | a turn that throws leaves the counters alone and the next turn uses the same topic |
| ConversationDriver.UndefinedReplyAdvances | main.js:247-250 | an assistant call that ends in `undefined` still advances both counters |
| ConversationDriver.Program | main.js:224-264 | the run fails before any turn exactly when startup fails; otherwise it is the turn loop from counters 1 and 0 |
| ConversationDriver.BlankTokenStopsProgram | main.js:229-232 | an unset or blank token stops the program |
| ConversationDriver.TwoTurnScenario | main.js:235-250 | two completed turns from the start ask with `topicIndex` 0 and 1, the first and second topics, and end with counters 3 and 2 |

## Left out

- `main.py`: a second variant built on network and file I/O, a random topic choice and a non-streaming call without retries.
- Byte-level UTF-8 decoding by `TextDecoder`: the decoder is modelled on decoded text, and how split multi-byte characters are garbled is not modelled.
- `JSON.parse` and the optional-chaining path `choices[0]?.delta?.content`: they are the parameter `extract`.
- StreamDecoder.Fragment: a truthy content that is not a string (a number, an object) would be appended through string conversion; `extract` only ever yields strings.
- `fetch`, the Groq SDK call `getGroqUserMessage`, `dotenv` and `process.env`: each turn's environment supplies the user-message outcome and the attempts' answers; the token variable, read once at startup, is the parameter `variable` of `ConversationDriver.Program`.
- Header construction and browser-impersonation values (`createGaianetHeaders`, the extra headers at main.js:132-135): configuration only, with no effect on the modelled logic.
- `console.warn`/`console.error` and the error messages' text. `process.stdout.write` is modelled: one attempt's writes by `RetryController.Printed`, and a whole call's writes by `RetryController.ConsoleOutput`, which covers every attempt in order, including broken ones.
- Real sleeps: the model records the requested `setTimeout` delays instead.
- RetryController.ChatWithGaianet: `retryCount` is an integer. A fractional budget (for which `i === retryCount - 1` never holds) is not modelled. Node's clamping of delays above 2^31-1 ms to 1 ms is not modelled either; it only matters when more than 22 attempts are allowed, and the only caller uses the default of 20.
- The Groq model's temperature and token limit: floating-point configuration passed to an external service.
- The text of the prompt handed to `getGroqUserMessage`: each record keeps the `topicIndex` it asked with, from which the prompt is `Topics[TopicSlot(topic)]`; the generator's answer is supplied per turn.
- ConversationDriver.Run: the endless `while (true)` is modelled by its finite prefixes, one turn environment per iteration.
- Counter width: `interactionCount` and `topicIndex` are unbounded integers. In JavaScript they are doubles, so `topicIndex++` would stop changing at 2^53. That is unreachable in practice, because every completed turn pauses at least 10 seconds.

=== FILE: auth_token.dfy ===
/**
 * `getAuthToken` and the startup check in `main` (main.js:67-74, 229-232):
 * the `GAIANET_AUTH_TOKEN` variable is trimmed; an unset variable makes `.trim()`
 * throw, which is caught and turned into `null`; a null or empty token stops
 * the program before the first turn.
 */
module AuthToken {
  import opened Options

  /**
   * The characters `String.prototype.trim` removes: white space (tab, vertical tab,
   * form feed, space, no-break space, byte order mark, every space separator) and
   * line terminators (line feed, carriage return, line and paragraph separators).
   */
  predicate IsTrimmable(c: char) {
    var n := c as int;
    || n == 0x09 || n == 0x0A || n == 0x0B || n == 0x0C || n == 0x0D || n == 0x20
    || n == 0xA0 || n == 0x1680 || (0x2000 <= n <= 0x200A) || n == 0x2028 || n == 0x2029
    || n == 0x202F || n == 0x205F || n == 0x3000 || n == 0xFEFF
  }

  predicate AllTrimmable(s: string) {
    forall k :: 0 <= k < |s| ==> IsTrimmable(s[k])
  }

  function TrimStart(s: string): (r: string)
    ensures |r| <= |s| && r == s[|s| - |r|..]
    ensures AllTrimmable(s[..|s| - |r|])
    ensures r == "" || !IsTrimmable(r[0])
  {
    if |s| > 0 && IsTrimmable(s[0]) then
      var r := TrimStart(s[1..]);
      TrimmedPrefixGrows(s, r);
      r
    else s
  }

  function TrimEnd(s: string): (r: string)
    ensures |r| <= |s| && r == s[..|r|]
    ensures AllTrimmable(s[|r|..])
    ensures r == "" || !IsTrimmable(r[|r| - 1])
  {
    if |s| > 0 && IsTrimmable(s[|s| - 1]) then
      var r := TrimEnd(s[..|s| - 1]);
      TrimmedSuffixGrows(s, r);
      r
    else s
  }

  /** A trimmable first character extends the trimmable prefix removed from the rest. */
  lemma TrimmedPrefixGrows(s: string, r: string)
    requires |r| < |s| && IsTrimmable(s[0]) && AllTrimmable(s[1..][..|s[1..]| - |r|])
    ensures AllTrimmable(s[..|s| - |r|])
  {
    var n := |s| - |r|;
    forall k | 0 < k < n ensures IsTrimmable(s[..n][k]) {
      assert s[..n][k] == s[1..][..n - 1][k - 1];
    }
  }

  /** A trimmable last character extends the trimmable suffix removed from the rest. */
  lemma TrimmedSuffixGrows(s: string, r: string)
    requires |r| < |s| && IsTrimmable(s[|s| - 1]) && AllTrimmable(s[..|s| - 1][|r|..])
    ensures AllTrimmable(s[|r|..])
  {
    forall k | 0 <= k < |s| - |r| - 1 ensures IsTrimmable(s[|r|..][k]) {
      assert s[|r|..][k] == s[..|s| - 1][|r|..][k];
    }
  }

  /**
   * `s.trim()`: the part of `s` left after removing trimmable characters from both
   * ends. It is a contiguous piece of `s`, everything removed is trimmable, and it
   * neither starts nor ends with a trimmable character.
   */
  function Trim(s: string): (r: string)
    ensures exists a, b :: 0 <= a <= b <= |s| && r == s[a..b] && AllTrimmable(s[..a]) && AllTrimmable(s[b..])
    ensures r == "" || (!IsTrimmable(r[0]) && !IsTrimmable(r[|r| - 1]))
  {
    var t := TrimStart(s);
    var r := TrimEnd(t);
    TrimmedMiddle(s, t, r);
    r
  }

  /** The part left by trimming the front and then the back is a middle piece of `s`. */
  lemma TrimmedMiddle(s: string, t: string, r: string)
    requires |t| <= |s| && t == s[|s| - |t|..] && AllTrimmable(s[..|s| - |t|])
    requires t == "" || !IsTrimmable(t[0])
    requires |r| <= |t| && r == t[..|r|] && AllTrimmable(t[|r|..])
    requires r == "" || !IsTrimmable(r[|r| - 1])
    ensures exists a, b :: 0 <= a <= b <= |s| && r == s[a..b] && AllTrimmable(s[..a]) && AllTrimmable(s[b..])
    ensures r == "" || (!IsTrimmable(r[0]) && !IsTrimmable(r[|r| - 1]))
  {
    var a := |s| - |t|;
    var b := a + |r|;
    assert r == s[a..b];
    assert s[b..] == t[|r|..];
    if r != "" {
      assert r[0] == t[0];
    }
  }

  /** Trimming twice is trimming once. */
  lemma TrimIdempotent(s: string)
    ensures Trim(Trim(s)) == Trim(s)
  {
    var r := Trim(s);
    if r != "" {
      assert !IsTrimmable(r[0]);
      assert TrimStart(r) == r;
      assert !IsTrimmable(r[|r| - 1]);
      assert TrimEnd(r) == r;
    }
  }

  /** `getAuthToken()`: the trimmed variable, or `null` when it is unset. */
  function GetAuthToken(variable: Option<string>): (token: Option<string>)
    ensures variable.None? <==> token.None?
    ensures token.Some? ==> token.value == Trim(variable.value)
  {
    match variable
    case None => None
    case Some(v) => Some(Trim(v))
  }

  /** Why the program stopped before its first turn. */
  datatype StartupError = MissingToken

  /**
   * The check `if (!gaianetToken) throw`: startup succeeds exactly when the variable
   * is set and holds something other than trimmable characters.
   */
  function Startup(variable: Option<string>): (r: Result<string, StartupError>)
    ensures r.Success? <==> variable.Some? && !AllTrimmable(variable.value)
    ensures r.Success? ==> r.value == Trim(variable.value) && r.value != ""
  {
    match GetAuthToken(variable)
    case None => Failure(MissingToken)
    case Some(token) => if token == "" then Failure(MissingToken) else Success(token)
  }

  /** Trim yields "" exactly for texts made only of trimmable characters. */
  lemma TrimEmpty(s: string)
    ensures Trim(s) == "" <==> AllTrimmable(s)
  {
    var t := TrimStart(s);
    var a := |s| - |t|;
    if Trim(s) == "" {
      assert AllTrimmable(t) by {
        assert t[|TrimEnd(t)|..] == t;
      }
      AllTrimmableConcat(s[..a], t);
      assert s[..a] + t == s;
    }
    if AllTrimmable(s) {
      SuffixTrimmable(s, a);
      assert t == "";
    }
  }

  lemma SuffixTrimmable(s: string, a: nat)
    requires a <= |s| && AllTrimmable(s)
    ensures AllTrimmable(s[a..])
  {
    forall k | 0 <= k < |s| - a ensures IsTrimmable(s[a..][k]) {
      assert s[a..][k] == s[a + k];
    }
  }

  lemma AllTrimmableConcat(x: string, y: string)
    requires AllTrimmable(x) && AllTrimmable(y)
    ensures AllTrimmable(x + y)
  {
    forall k | 0 <= k < |x + y| ensures IsTrimmable((x + y)[k]) {
      if k >= |x| { assert (x + y)[k] == y[k - |x|]; }
    }
  }
}

=== FILE: conversation_driver.dfy ===
/**
 * The turn loop of `main` (main.js:224-264). Each turn picks the topic at
 * `topicIndex % TOPICS.length`, asks the user-message generator, then calls
 * `chatWithGaianet` with the default retry budget. The counters advance only
 * when the turn body finishes without throwing; otherwise the same topic is
 * tried again after the error pause. The endless loop is modelled by its
 * finite prefixes: one environment per turn.
 */
module ConversationDriver {
  import opened Options
  import StreamDecoder
  import RetryController
  import AuthToken

  const Topics: seq<string> := [
    "Ask about tourist attractions in paris, france",
    "Ask about the best restaurants in Paris",
    "Ask about museums in Paris",
    "Ask about shopping areas in Paris",
    "Ask about historical sites in Paris"
  ]

  /** `RETRY_CONFIG.NORMAL_WAIT` and `RETRY_CONFIG.ERROR_WAIT`, in seconds. */
  const NormalWait: nat := 10
  const ErrorWait: nat := 15

  datatype Counters = Counters(interactionCount: int, topicIndex: nat)

  /** `let interactionCount = 1; let topicIndex = 0;` */
  const Start := Counters(1, 0)

  /**
   * What one turn meets: the user-message generator's answer (a message, or the
   * error it threw) and the network of the assistant call.
   */
  datatype Turn = Turn(userMessage: Result<string, string>, network: nat -> RetryController.Attempt)

  /**
   * One turn as it happened: the value of `topicIndex` it asked with (its prompt is
   * `Topics[TopicSlot(topic)]`), whether its body completed, the counters after it,
   * and its pause (ms).
   */
  datatype TurnRecord = TurnRecord(topic: nat, completed: bool, next: Counters, pause: nat)

  /** `topicIndex % TOPICS.length`: always a position of the list. */
  function TopicSlot(topicIndex: nat): (slot: nat)
    ensures slot < |Topics|
  {
    topicIndex % |Topics|
  }

  /** `TOPICS[topicIndex % TOPICS.length]`, the prompt handed to the user-message generator. */
  function CurrentTopic(c: Counters): string {
    Topics[TopicSlot(c.topicIndex)]
  }

  /** Whether a turn's body runs to its end: the user message arrives and the assistant call does not throw. */
  predicate Completes(turn: Turn, extract: StreamDecoder.Extractor) {
    && turn.userMessage.Success?
    && !RetryController.ChatWithGaianet(turn.network, extract, RetryController.MaxAttempts).result.Thrown?
  }

  /** The record of a turn from counters `c`, once it is known whether its body completed. */
  function Advance(c: Counters, completed: bool): TurnRecord {
    if completed then TurnRecord(c.topicIndex, true, Counters(c.interactionCount + 1, c.topicIndex + 1), NormalWait * 1000)
    else TurnRecord(c.topicIndex, false, c, ErrorWait * 1000)
  }

  /** One iteration of `while (true)`, including its `catch`. */
  function Step(c: Counters, turn: Turn, extract: StreamDecoder.Extractor): (rec: TurnRecord)
    ensures rec.topic == c.topicIndex
    ensures rec.completed <==> Completes(turn, extract)
    ensures rec.completed ==>
      rec.next == Counters(c.interactionCount + 1, c.topicIndex + 1) && rec.pause == NormalWait * 1000
    ensures !rec.completed ==> rec.next == c && rec.pause == ErrorWait * 1000
  {
    match turn.userMessage
    case Failure(_) => TurnRecord(c.topicIndex, false, c, ErrorWait * 1000)
    case Success(_) =>
      var run := RetryController.ChatWithGaianet(turn.network, extract, RetryController.MaxAttempts);
      if run.result.Thrown? then TurnRecord(c.topicIndex, false, c, ErrorWait * 1000)
      else TurnRecord(c.topicIndex, true, Counters(c.interactionCount + 1, c.topicIndex + 1), NormalWait * 1000)
  }

  /** The counters after a trace that started from `c`. */
  function Final(c: Counters, trace: seq<TurnRecord>): Counters {
    if |trace| == 0 then c else trace[|trace| - 1].next
  }

  function CompletedCount(trace: seq<TurnRecord>): nat {
    if |trace| == 0 then 0 else (if trace[0].completed then 1 else 0) + CompletedCount(trace[1..])
  }

  /**
   * The loop run from `c` over turns whose bodies complete or throw as `outcomes`
   * says: one record per turn, each recording its own outcome, and at the end each
   * counter has grown by the number of completed turns.
   */
  function Run(c: Counters, outcomes: seq<bool>): (trace: seq<TurnRecord>)
    ensures |trace| == |outcomes|
    ensures forall k :: 0 <= k < |trace| ==> trace[k].completed == outcomes[k]
    ensures Final(c, trace) == Counters(c.interactionCount + CompletedCount(trace), c.topicIndex + CompletedCount(trace))
    decreases |outcomes|
  {
    if |outcomes| == 0 then []
    else
      var rec := Advance(c, outcomes[0]);
      var rest := Run(rec.next, outcomes[1..]);
      assert ([rec] + rest)[1..] == rest;
      [rec] + rest
  }

  /** Whether each of the given turns completes. */
  function Outcomes(turns: seq<Turn>, extract: StreamDecoder.Extractor): (os: seq<bool>)
    ensures |os| == |turns|
    ensures forall k :: 0 <= k < |turns| ==> os[k] == Completes(turns[k], extract)
  {
    seq(|turns|, k requires 0 <= k < |turns| => Completes(turns[k], extract))
  }

  /** The records of the given turns, run one after another from `c`. */
  function Drive(c: Counters, turns: seq<Turn>, extract: StreamDecoder.Extractor): (trace: seq<TurnRecord>)
    ensures |trace| == |turns|
    ensures forall k :: 0 <= k < |turns| ==> (trace[k].completed <==> Completes(turns[k], extract))
    ensures Final(c, trace) == Counters(c.interactionCount + CompletedCount(trace), c.topicIndex + CompletedCount(trace))
  {
    Run(c, Outcomes(turns, extract))
  }

  /** The program: the startup check, then the turns; nothing runs when the token is missing. */
  function Program(variable: Option<string>, turns: seq<Turn>, extract: StreamDecoder.Extractor)
    : (r: Result<seq<TurnRecord>, AuthToken.StartupError>)
    ensures r.Failure? <==> AuthToken.Startup(variable).Failure?
    ensures r.Success? ==> r.value == Drive(Start, turns, extract)
  {
    match AuthToken.Startup(variable)
    case Failure(e) => Failure(e)
    case Success(_) => Success(Drive(Start, turns, extract))
  }

  // ---------------------------------------------------------------------------
  // Properties of the driver

  /** Topic selection repeats with period |Topics|: advancing the topic index by 5 selects the same topic. */
  lemma TopicCycles(c: Counters)
    ensures CurrentTopic(Counters(c.interactionCount, c.topicIndex + |Topics|)) == CurrentTopic(c)
  {
    SlotPeriodic(c.topicIndex);
  }

  lemma SlotPeriodic(i: nat)
    ensures TopicSlot(i + |Topics|) == TopicSlot(i)
  {
  }

  /** A turn's record depends on the network only through whether its body completed. */
  lemma StepIsAdvance(c: Counters, turn: Turn, extract: StreamDecoder.Extractor)
    ensures Step(c, turn, extract) == Advance(c, Completes(turn, extract))
  {
  }

  lemma TakeCons<T>(x: T, xs: seq<T>, n: nat)
    requires n <= |xs|
    ensures ([x] + xs)[..n + 1] == [x] + xs[..n]
  {
  }

  lemma TakeSnoc<T>(s: seq<T>, n: nat)
    requires 0 < n <= |s|
    ensures s[..n] == s[..n - 1] + [s[n - 1]]
  {
  }

  lemma FinalCons(c: Counters, rec: TurnRecord, tail: seq<TurnRecord>)
    ensures Final(c, [rec] + tail) == Final(rec.next, tail)
  {
  }

  /** Each record of the loop continues from the counters the previous one left. */
  lemma {:induction false} RunChain(c: Counters, outcomes: seq<bool>, k: nat)
    requires k < |outcomes|
    ensures Run(c, outcomes)[k] == Advance(Final(c, Run(c, outcomes)[..k]), outcomes[k])
    decreases k
  {
    var rec := Advance(c, outcomes[0]);
    var rest := Run(rec.next, outcomes[1..]);
    var trace := Run(c, outcomes);
    assert trace == [rec] + rest;
    if k == 0 {
      assert trace[..0] == [];
    } else {
      RunChain(rec.next, outcomes[1..], k - 1);
      assert trace[k] == rest[k - 1];
      assert outcomes[1..][k - 1] == outcomes[k];
      TakeCons(rec, rest, k - 1);
      FinalCons(c, rec, rest[..k - 1]);
      assert Final(c, trace[..k]) == Final(rec.next, rest[..k - 1]);
    }
  }

  /** Turn k of a run starts from the counters turn k - 1 left and behaves as one `Step`. */
  lemma DriveChain(c: Counters, turns: seq<Turn>, extract: StreamDecoder.Extractor, k: nat)
    requires k < |turns|
    ensures Drive(c, turns, extract)[k] == Step(Final(c, Drive(c, turns, extract)[..k]), turns[k], extract)
  {
    RunChain(c, Outcomes(turns, extract), k);
    StepIsAdvance(Final(c, Drive(c, turns, extract)[..k]), turns[k], extract);
  }

  lemma {:induction false} CompletedCountSnoc(trace: seq<TurnRecord>, rec: TurnRecord)
    ensures CompletedCount(trace + [rec]) == CompletedCount(trace) + (if rec.completed then 1 else 0)
    decreases |trace|
  {
    if |trace| == 0 {
      assert trace + [rec] == [rec];
    } else {
      assert (trace + [rec])[1..] == trace[1..] + [rec];
      CompletedCountSnoc(trace[1..], rec);
    }
  }

  /**
   * After any prefix of a run, each counter has grown by exactly the number of
   * turns in it whose body completed.
   */
  lemma {:induction false} CountersTrackCompletedTurns(c: Counters, outcomes: seq<bool>, k: nat)
    requires k <= |outcomes|
    ensures var trace := Run(c, outcomes);
      Final(c, trace[..k]) == Counters(c.interactionCount + CompletedCount(trace[..k]),
                                       c.topicIndex + CompletedCount(trace[..k]))
    decreases k
  {
    var trace := Run(c, outcomes);
    if k > 0 {
      var prefix := trace[..k - 1];
      var rec := trace[k - 1];
      CountersTrackCompletedTurns(c, outcomes, k - 1);
      RunChain(c, outcomes, k - 1);
      TakeSnoc(trace, k);
      assert Final(c, trace[..k]) == rec.next;
      CompletedCountSnoc(prefix, rec);
    }
  }

  /** `interactionCount` stays one ahead of `topicIndex` for the whole run. */
  lemma CountersStayInStep(turns: seq<Turn>, extract: StreamDecoder.Extractor, k: nat)
    requires k <= |turns|
    ensures Final(Start, Drive(Start, turns, extract)[..k]).interactionCount
         == Final(Start, Drive(Start, turns, extract)[..k]).topicIndex + 1
  {
    CountersTrackCompletedTurns(Start, Outcomes(turns, extract), k);
  }

  /** Turn k asks about the topic after as many topics as turns have completed before it. */
  lemma TopicOfTurn(c: Counters, turns: seq<Turn>, extract: StreamDecoder.Extractor, k: nat)
    requires k < |turns|
    ensures var trace := Drive(c, turns, extract);
      trace[k].topic == c.topicIndex + CompletedCount(trace[..k])
  {
    RunTopic(c, Outcomes(turns, extract), k);
  }

  lemma RunTopic(c: Counters, outcomes: seq<bool>, k: nat)
    requires k < |outcomes|
    ensures var trace := Run(c, outcomes);
      trace[k].topic == c.topicIndex + CompletedCount(trace[..k])
  {
    RunChain(c, outcomes, k);
    CountersTrackCompletedTurns(c, outcomes, k);
  }

  lemma {:induction false} CompletedCountAll(trace: seq<TurnRecord>)
    requires forall j :: 0 <= j < |trace| ==> trace[j].completed
    ensures CompletedCount(trace) == |trace|
    decreases |trace|
  {
    if |trace| > 0 {
      assert forall j :: 0 <= j < |trace| - 1 ==> trace[1..][j].completed;
      CompletedCountAll(trace[1..]);
    }
  }

  /**
   * When every turn completes, turn k of the program asks with `topicIndex` k,
   * so the topics are visited in list order, wrapping round after the last.
   */
  lemma EveryTurnCompletes(turns: seq<Turn>, extract: StreamDecoder.Extractor, k: nat)
    requires k < |turns|
    requires forall j :: 0 <= j < |turns| ==> Completes(turns[j], extract)
    ensures Drive(Start, turns, extract)[k].topic == k
    ensures Topics[TopicSlot(Drive(Start, turns, extract)[k].topic)] == Topics[k % |Topics|]
  {
    var os := Outcomes(turns, extract);
    AllOutcomesTrue(turns, extract);
    RunAllCompleted(Start, os, k);
  }

  lemma AllOutcomesTrue(turns: seq<Turn>, extract: StreamDecoder.Extractor)
    requires forall j :: 0 <= j < |turns| ==> Completes(turns[j], extract)
    ensures forall j :: 0 <= j < |turns| ==> Outcomes(turns, extract)[j]
  {
  }

  lemma RunAllCompleted(c: Counters, outcomes: seq<bool>, k: nat)
    requires k < |outcomes|
    requires forall j :: 0 <= j < |outcomes| ==> outcomes[j]
    ensures Run(c, outcomes)[k].topic == c.topicIndex + k
  {
    var trace := Run(c, outcomes);
    RunTopic(c, outcomes, k);
    CompletedCountAll(trace[..k]);
  }

  /** A turn that throws changes nothing, so the next turn retries the same topic. */
  lemma FailedTurnRetriesTopic(c: Counters, turns: seq<Turn>, extract: StreamDecoder.Extractor, k: nat)
    requires k + 1 < |turns|
    requires !Drive(c, turns, extract)[k].completed
    ensures Drive(c, turns, extract)[k + 1].topic == Drive(c, turns, extract)[k].topic
    ensures Final(c, Drive(c, turns, extract)[..k + 1]) == Final(c, Drive(c, turns, extract)[..k])
  {
    RunFailedRetries(c, Outcomes(turns, extract), k);
  }

  lemma RunFailedRetries(c: Counters, outcomes: seq<bool>, k: nat)
    requires k + 1 < |outcomes|
    requires !outcomes[k]
    ensures Run(c, outcomes)[k + 1].topic == Run(c, outcomes)[k].topic
    ensures Final(c, Run(c, outcomes)[..k + 1]) == Final(c, Run(c, outcomes)[..k])
  {
    var trace := Run(c, outcomes);
    RunChain(c, outcomes, k);
    RunChain(c, outcomes, k + 1);
    assert trace[..k + 1][k] == trace[k];
  }

  /** A turn whose assistant call falls off its loop with `undefined` still completes. */
  lemma UndefinedReplyAdvances(c: Counters, turn: Turn, extract: StreamDecoder.Extractor)
    requires turn.userMessage.Success?
    requires RetryController.ChatWithGaianet(turn.network, extract, RetryController.MaxAttempts).result.Undefined?
    ensures Step(c, turn, extract).next == Counters(c.interactionCount + 1, c.topicIndex + 1)
  {
  }

  /** A missing or blank token stops the program before any turn. */
  lemma BlankTokenStopsProgram(variable: Option<string>, turns: seq<Turn>, extract: StreamDecoder.Extractor)
    requires variable.None? || AuthToken.AllTrimmable(variable.value)
    ensures Program(variable, turns, extract).Failure?
  {
  }

  /**
   * Two turns that both complete, from the start: the first asks about the first
   * topic, the second about the second, and the counters end at 3 and 2.
   */
  lemma TwoTurnScenario(t1: Turn, t2: Turn, extract: StreamDecoder.Extractor)
    requires t1.userMessage.Success? && t2.userMessage.Success?
    requires t1.network(0) == RetryController.Response(200, RetryController.Body([], None))
    requires t2.network(0) == RetryController.Response(200, RetryController.Body([], None))
    ensures var trace := Drive(Start, [t1, t2], extract);
      && trace[0].topic == 0 && trace[1].topic == 1
      && Final(Start, trace) == Counters(3, 2)
  {
    RetryController.FirstSuccessWins(t1.network, extract, RetryController.MaxAttempts, 0);
    RetryController.FirstSuccessWins(t2.network, extract, RetryController.MaxAttempts, 0);
    assert Outcomes([t1, t2], extract) == [true, true];
    TwoCompletedTurns();
  }

  lemma TwoCompletedTurns()
    ensures var trace := Run(Start, [true, true]);
      && trace[0].topic == 0 && trace[1].topic == 1
      && Final(Start, trace) == Counters(3, 2)
  {
    assert [true, true][1..] == [true];
    assert Run(Counters(2, 1), [true]) == [Advance(Counters(2, 1), true)];
  }
}

=== FILE: lines.dfy ===
/**
 * Line splitting as the stream decoder does it: JavaScript's `text.split("\n")`.
 * The pieces are newline-free and joining them with newlines gives the text back;
 * the last piece is the (possibly empty) text after the last newline.
 */
module Lines {

  const NL: char := '\n'

  /** The pieces of `s` between newlines, in order. Never empty. */
  function Split(s: string): (parts: seq<string>)
    ensures |parts| >= 1
    ensures forall k :: 0 <= k < |parts| ==> NL !in parts[k]
    decreases |s|
  {
    if |s| == 0 then [""]
    else
      var rest := Split(s[1..]);
      if s[0] == NL then [""] + rest
      else [[s[0]] + rest[0]] + rest[1..]
  }

  /** `parts.join("\n")`: the inverse of Split. */
  function Join(parts: seq<string>): string
    requires |parts| >= 1
    decreases |parts|
  {
    if |parts| == 1 then parts[0] else parts[0] + [NL] + Join(parts[1..])
  }

  /** Every piece of a split except the last: the lines that a newline has completed. */
  function Init(parts: seq<string>): seq<string>
    requires |parts| >= 1
  {
    parts[..|parts| - 1]
  }

  function Last(parts: seq<string>): string
    requires |parts| >= 1
  {
    parts[|parts| - 1]
  }

  /** The split of a concatenation: the last piece of `xs` and the first of `ys` fuse into one. */
  function Glue(xs: seq<string>, ys: seq<string>): seq<string>
    requires |xs| >= 1 && |ys| >= 1
  {
    Init(xs) + [Last(xs) + ys[0]] + ys[1..]
  }

  /**
   * The text after the last newline of `s` (all of `s` when it has none),
   * defined from the end of the text, independently of Split.
   */
  function AfterLastNewline(s: string): (r: string)
    ensures IsLastPiece(s, r)
  {
    if |s| == 0 then ""
    else if s[|s| - 1] == NL then ""
    else
      var r' := AfterLastNewline(s[..|s| - 1]);
      assert s[..|s| - 1][|s| - 1 - |r'|..] + [s[|s| - 1]] == s[|s| - 1 - |r'|..];
      r' + [s[|s| - 1]]
  }

  /** A text without newlines is a single piece. */
  lemma {:induction false} SplitNoNewline(s: string)
    requires NL !in s
    ensures Split(s) == [s]
    decreases |s|
  {
    if |s| > 0 {
      assert NL !in s[1..] by {
        forall k | 0 <= k < |s[1..]| ensures s[1..][k] != NL {
          assert s[1..][k] == s[k + 1];
        }
      }
      SplitNoNewline(s[1..]);
      assert [s[0]] + s[1..] == s;
    }
  }

  lemma GlueConsHead(x: string, xs: seq<string>, ys: seq<string>)
    requires |xs| >= 1 && |ys| >= 1
    ensures Glue([x + xs[0]] + xs[1..], ys)
         == [x + Glue(xs, ys)[0]] + Glue(xs, ys)[1..]
  {
    var xs' := [x + xs[0]] + xs[1..];
    if |xs| == 1 {
      assert Init(xs') == [] && Last(xs') == x + xs[0];
      assert Init(xs) == [] && Last(xs) == xs[0];
      assert Glue(xs, ys) == [xs[0] + ys[0]] + ys[1..];
      assert Glue(xs, ys)[1..] == ys[1..];
      assert (x + xs[0]) + ys[0] == x + (xs[0] + ys[0]);
    } else {
      assert Init(xs') == [x + xs[0]] + Init(xs)[1..];
      assert Last(xs') == Last(xs);
      assert Glue(xs, ys)[0] == xs[0];
      assert Glue(xs, ys)[1..] == Init(xs)[1..] + [Last(xs) + ys[0]] + ys[1..];
    }
  }

  lemma GlueCons(x: string, xs: seq<string>, ys: seq<string>)
    requires |xs| >= 1 && |ys| >= 1
    ensures Glue([x] + xs, ys) == [x] + Glue(xs, ys)
  {
    assert Init([x] + xs) == [x] + Init(xs);
    assert Last([x] + xs) == Last(xs);
  }

  /** Splitting a concatenation splits both halves and fuses the seam. */
  lemma {:induction false} SplitAppend(a: string, b: string)
    ensures Split(a + b) == Glue(Split(a), Split(b))
    decreases |a|
  {
    if |a| == 0 {
      assert a + b == b;
      assert "" + Split(b)[0] == Split(b)[0];
      assert Glue([""], Split(b)) == [Split(b)[0]] + Split(b)[1..];
      assert [Split(b)[0]] + Split(b)[1..] == Split(b);
    } else {
      var c := a[0];
      assert (a + b)[0] == c;
      assert (a + b)[1..] == a[1..] + b;
      SplitAppend(a[1..], b);
      if c == NL {
        GlueCons("", Split(a[1..]), Split(b));
      } else {
        GlueConsHead([c], Split(a[1..]), Split(b));
      }
    }
  }

  /** Join undoes Split: no character of the text is lost or invented. */
  lemma {:induction false} JoinSplit(s: string)
    ensures Join(Split(s)) == s
    decreases |s|
  {
    if |s| > 0 {
      var rest := Split(s[1..]);
      JoinSplit(s[1..]);
      if s[0] == NL {
        assert ([""] + rest)[1..] == rest;
        assert s == [NL] + s[1..];
      } else {
        JoinConsHead([s[0]], rest);
        assert s == [s[0]] + s[1..];
      }
    }
  }

  lemma {:induction false} JoinConsHead(x: string, parts: seq<string>)
    requires |parts| >= 1
    ensures Join([x + parts[0]] + parts[1..]) == x + Join(parts)
  {
    var p := [x + parts[0]] + parts[1..];
    if |parts| > 1 {
      assert p[1..] == parts[1..];
    }
  }

  /** Split undoes Join on newline-free pieces: split is exactly `split("\n")`. */
  lemma {:induction false} SplitJoin(parts: seq<string>)
    requires |parts| >= 1
    requires forall k :: 0 <= k < |parts| ==> NL !in parts[k]
    ensures Split(Join(parts)) == parts
    decreases |parts|
  {
    if |parts| > 1 {
      var tail := Join(parts[1..]);
      assert Join(parts) == parts[0] + [NL] + tail;
      SplitLine(parts[0], tail);
      SplitJoin(parts[1..]);
      assert [parts[0]] + parts[1..] == parts;
    } else {
      SplitNoNewline(parts[0]);
    }
  }

  /** A newline-free line and its newline in front of a text add exactly one piece to its split. */
  lemma {:induction false} SplitLine(line: string, rest: string)
    requires NL !in line
    ensures Split(line + [NL] + rest) == [line] + Split(rest)
    decreases |line|
  {
    var s := line + [NL] + rest;
    if |line| == 0 {
      assert s[0] == NL && s[1..] == rest;
    } else {
      assert s[0] == line[0] && s[0] != NL;
      assert s[1..] == line[1..] + [NL] + rest;
      assert NL !in line[1..] by {
        forall k | 0 <= k < |line[1..]| ensures line[1..][k] != NL {
          assert line[1..][k] == line[k + 1];
        }
      }
      SplitLine(line[1..], rest);
      assert [line[0]] + line[1..] == line;
    }
  }

  lemma InitGlue(xs: seq<string>, ys: seq<string>)
    requires |xs| >= 1 && |ys| >= 1
    ensures Init(Glue(xs, ys)) == Init(xs) + Init(Glue([Last(xs)], ys))
    ensures Last(Glue(xs, ys)) == Last(Glue([Last(xs)], ys))
  {
    assert Glue([Last(xs)], ys) == [Last(xs) + ys[0]] + ys[1..];
  }

  /** The last piece of a split is the text after the last newline. */
  lemma LastSplit(s: string)
    ensures Last(Split(s)) == AfterLastNewline(s)
  {
    var parts := Split(s);
    var r := Last(parts);
    JoinSplit(s);
    if |parts| > 1 {
      JoinLast(parts);
      var j := Join(Init(parts));
      assert s == (j + [NL]) + r;
      assert s[|s| - |r|..] == r && s[|s| - |r| - 1] == NL;
    }
    LastPieceUnique(s, r, AfterLastNewline(s));
  }

  /** `r` is a newline-free suffix of `s` that is all of `s` or follows a newline. */
  predicate IsLastPiece(s: string, r: string) {
    && NL !in r
    && |r| <= |s| && r == s[|s| - |r|..]
    && (|r| == |s| || s[|s| - |r| - 1] == NL)
  }

  /** A text has only one last piece. */
  lemma LastPieceUnique(s: string, r1: string, r2: string)
    requires IsLastPiece(s, r1) && IsLastPiece(s, r2)
    ensures r1 == r2
  {
    SuffixNewlineFree(s, r1);
    SuffixNewlineFree(s, r2);
    assert |r1| == |r2|;
  }

  lemma SuffixNewlineFree(s: string, r: string)
    requires NL !in r && |r| <= |s| && r == s[|s| - |r|..]
    ensures forall k :: |s| - |r| <= k < |s| ==> s[k] != NL
  {
    forall k | |s| - |r| <= k < |s| ensures s[k] != NL {
      assert s[k] == r[k - (|s| - |r|)];
    }
  }

  /** Joining puts a newline between everything before the last piece and the last piece. */
  lemma {:induction false} JoinLast(parts: seq<string>)
    requires |parts| > 1
    ensures Join(parts) == Join(Init(parts)) + [NL] + Last(parts)
    decreases |parts|
  {
    var p0, tail := parts[0], parts[1..];
    if |parts| == 2 {
      assert Init(parts) == [p0] && Last(parts) == tail[0];
      assert Join(parts) == p0 + [NL] + Join(tail);
    } else {
      JoinLast(tail);
      assert Init(parts) == [p0] + Init(tail);
      assert Init(parts)[1..] == Init(tail);
      assert Last(parts) == Last(tail);
      assert Join(Init(parts)) == p0 + [NL] + Join(Init(tail));
      assert Join(parts) == p0 + [NL] + (Join(Init(tail)) + [NL] + Last(tail));
      assert p0 + [NL] + (Join(Init(tail)) + [NL] + Last(tail))
          == (p0 + [NL] + Join(Init(tail))) + [NL] + Last(tail);
    }
  }
}

=== FILE: options.dfy ===
/** The optional and fallible values the model passes around. */
module Options {

  /** A value that may be missing: JavaScript's `undefined`/`null` or a failed lookup. */
  datatype Option<+T> = None | Some(value: T)

  /** A call that either produced a value or threw an error. */
  datatype Result<+R, +E> = Success(value: R) | Failure(error: E)
}

=== FILE: retry_controller.dfy ===
/**
 * The retry loop of `chatWithGaianet` (main.js:125-222). The network is the
 * function `network`: `network(i)` is what attempt i meets. Sleeps are not
 * taken; every requested `setTimeout` delay is recorded, in milliseconds, and
 * so is every fragment written to standard output.
 */
module RetryController {
  import opened Options
  import StreamDecoder

  /** `RETRY_CONFIG.MAX_ATTEMPTS`, the default `retryCount`. */
  const MaxAttempts: int := 20
  /** `RETRY_CONFIG.INITIAL_WAIT`, in seconds: the pause after a thrown error. */
  const InitialWait: nat := 5

  /** The errors thrown inside one attempt. */
  datatype Error =
    | AuthFailed                  // status 401
    | HttpError(status: int)      // any other status outside 200-299 except 429 and 504
    | NetworkError(reason: string)      // `fetch` itself rejected
    | StreamInterrupted(reason: string) // reading the body threw

  /** The body as delivered: its chunks, and the error reading threw after them, if any. */
  datatype Body = Body(chunks: seq<string>, interruption: Option<string>)

  /** What one attempt meets on the network. */
  datatype Attempt = FetchFailed(reason: string) | Response(status: int, body: Body)

  /** How one attempt ends: `return`, `continue` after a busy status, or `throw`. */
  datatype Verdict = Return(reply: string) | Busy | Throw(error: Error)

  /** How the whole call ends; `Undefined` is falling off the end of the loop. */
  datatype Completion = Reply(text: string) | Thrown(error: Error) | Undefined

  /** The call's result, the number of attempts it made, and the waits it requested (ms). */
  datatype CallOutcome = CallOutcome(result: Completion, attempts: nat, waits: seq<nat>)

  predicate IsOk(status: int) {
    200 <= status <= 299
  }

  predicate IsBusy(status: int) {
    status == 504 || status == 429
  }

  /** The body of the `try` block for one attempt. */
  function Classify(a: Attempt, extract: StreamDecoder.Extractor): (v: Verdict)
    ensures v.Busy? <==> a.Response? && IsBusy(a.status)
    ensures v.Return? <==>
      a.Response? && IsOk(a.status) && a.body.interruption.None?
    ensures v.Return? ==> v.reply == StreamDecoder.Decode(a.body.chunks, extract).reply
    ensures v == Throw(AuthFailed) <==> a.Response? && a.status == 401
  {
    match a
    case FetchFailed(reason) => Throw(NetworkError(reason))
    case Response(status, body) =>
      if status == 401 then Throw(AuthFailed)
      else if IsBusy(status) then Busy
      else if !IsOk(status) then Throw(HttpError(status))
      else match body.interruption
        case Some(reason) => Throw(StreamInterrupted(reason))
        case None => Return(StreamDecoder.Decode(body.chunks, extract).reply)
  }

  /**
   * What one attempt writes to standard output: a response that passes the status
   * checks has its stream decoded, and every fragment decoded before the end of the
   * stream, or before reading it threw, has already been written.
   */
  function Printed(a: Attempt, extract: StreamDecoder.Extractor): (out: seq<string>)
    ensures Classify(a, extract).Return? ==> out == StreamDecoder.Decode(a.body.chunks, extract).emitted
    ensures a.Response? && IsOk(a.status) && a.body.interruption.Some? ==>
      && Classify(a, extract) == Throw(StreamInterrupted(a.body.interruption.value))
      && out == StreamDecoder.Decode(a.body.chunks, extract).emitted
    ensures a.FetchFailed? || Classify(a, extract).Busy? || Classify(a, extract) == Throw(AuthFailed) ==> out == []
  {
    if a.Response? && IsOk(a.status) then StreamDecoder.Decode(a.body.chunks, extract).emitted else []
  }

  /** The output of attempts `lo` up to, not including, `hi`, in attempt order. */
  function Transcript(printed: nat -> seq<string>, lo: nat, hi: nat): seq<string>
    decreases hi - lo
  {
    if lo >= hi then [] else printed(lo) + Transcript(printed, lo + 1, hi)
  }

  function Pow2(n: nat): (p: nat)
    ensures p >= 1
  {
    if n == 0 then 1 else 2 * Pow2(n - 1)
  }

  /** The delay after a busy status on attempt i: `Math.pow(2, i) * 1000`. */
  function BusyDelay(i: nat): nat {
    Pow2(i) * 1000
  }

  /** The delay after a thrown error: `RETRY_CONFIG.INITIAL_WAIT * 1000`. */
  const ErrorDelay: nat := InitialWait * 1000

  /** The wait attempt i requests when its verdict is `v` and it does not end the call. */
  function WaitAfter(v: Verdict, i: nat): nat {
    if v.Busy? then BusyDelay(i) else ErrorDelay
  }

  /**
   * The loop from iteration i on, given the verdict each attempt reaches.
   * `attempts` and `waits` count only the attempts made from i on.
   */
  function RunFrom(verdict: nat -> Verdict, retryCount: int, i: nat): (r: CallOutcome)
    ensures i >= retryCount ==> r.attempts == 0
    ensures i < retryCount ==> 1 <= r.attempts <= retryCount - i
    ensures |r.waits| == if r.result.Undefined? then r.attempts else r.attempts - 1
    ensures forall k :: 0 <= k < |r.waits| ==> r.waits[k] == WaitAfter(verdict(i + k), i + k)
    ensures forall j :: i <= j < i + r.attempts - 1 ==> !verdict(j).Return?
    ensures r.result.Reply? ==> verdict(i + r.attempts - 1) == Return(r.result.text)
    ensures r.result.Thrown? ==>
      i + r.attempts == retryCount && verdict(retryCount - 1) == Throw(r.result.error)
    ensures r.result.Undefined? ==>
      (i >= retryCount || (i + r.attempts == retryCount && verdict(retryCount - 1).Busy?))
    decreases retryCount - i
  {
    if i >= retryCount then CallOutcome(Undefined, 0, [])
    else match verdict(i)
      case Return(reply) => CallOutcome(Reply(reply), 1, [])
      case Busy =>
        var rest := RunFrom(verdict, retryCount, i + 1);
        CallOutcome(rest.result, rest.attempts + 1, [BusyDelay(i)] + rest.waits)
      case Throw(error) =>
        if i == retryCount - 1 then CallOutcome(Thrown(error), 1, [])
        else
          var rest := RunFrom(verdict, retryCount, i + 1);
          CallOutcome(rest.result, rest.attempts + 1, [ErrorDelay] + rest.waits)
  }

  /** The verdict of every attempt against the given network. */
  function Verdicts(network: nat -> Attempt, extract: StreamDecoder.Extractor): nat -> Verdict {
    (i: nat) => Classify(network(i), extract)
  }

  /** The output of every attempt against the given network. */
  function Outputs(network: nat -> Attempt, extract: StreamDecoder.Extractor): nat -> seq<string> {
    (i: nat) => Printed(network(i), extract)
  }

  /**
   * `chatWithGaianet(groqMessage, authToken, retryCount)`: at most `retryCount`
   * attempts; a reply is exactly what the successful attempt's own stream decoded;
   * an error is rethrown only from the last attempt; a busy last attempt falls
   * off the loop.
   */
  function ChatWithGaianet(network: nat -> Attempt, extract: StreamDecoder.Extractor, retryCount: int): (r: CallOutcome)
    ensures retryCount <= 0 ==> r == CallOutcome(Undefined, 0, [])
    ensures retryCount > 0 ==> 1 <= r.attempts <= retryCount
    ensures forall j :: 0 <= j < r.attempts - 1 ==> !Classify(network(j), extract).Return?
    ensures r.result.Reply? ==>
      var a := network(r.attempts - 1);
      && a.Response? && IsOk(a.status) && a.body.interruption.None?
      && r.result.text == StreamDecoder.Decode(a.body.chunks, extract).reply
    ensures r.result.Thrown? ==>
      r.attempts == retryCount && Classify(network(retryCount - 1), extract) == Throw(r.result.error)
    ensures r.result.Undefined? && retryCount > 0 ==>
      r.attempts == retryCount && network(retryCount - 1).Response? && IsBusy(network(retryCount - 1).status)
    ensures |r.waits| == if r.result.Undefined? then r.attempts else r.attempts - 1
    ensures forall k :: 0 <= k < |r.waits| ==> r.waits[k] == WaitAfter(Classify(network(k), extract), k)
  {
    var r := RunFrom(Verdicts(network, extract), retryCount, 0);
    assert forall k :: 0 <= k < |r.waits| ==> Verdicts(network, extract)(0 + k) == Classify(network(k), extract);
    r
  }

  /**
   * What `process.stdout.write` received during the call: the output of every
   * attempt it made, in order, including streams that broke after writing.
   */
  function ConsoleOutput(network: nat -> Attempt, extract: StreamDecoder.Extractor, retryCount: int): seq<string> {
    Transcript(Outputs(network, extract), 0, ChatWithGaianet(network, extract, retryCount).attempts)
  }

  // ---------------------------------------------------------------------------
  // Properties of the retry loop

  /** The first successful attempt ends the call, whatever the failed attempts before it streamed. */
  lemma FirstSuccessWins(network: nat -> Attempt, extract: StreamDecoder.Extractor, retryCount: int, m: nat)
    requires m < retryCount
    requires forall j :: 0 <= j < m ==> !Classify(network(j), extract).Return?
    requires Classify(network(m), extract).Return?
    ensures ChatWithGaianet(network, extract, retryCount).attempts == m + 1
    ensures ChatWithGaianet(network, extract, retryCount).result
         == Reply(StreamDecoder.Decode(network(m).body.chunks, extract).reply)
  {
  }

  /** Every attempt throwing: exactly `retryCount` attempts, the last error rethrown, a fixed pause between. */
  lemma AllThrownExhausts(network: nat -> Attempt, extract: StreamDecoder.Extractor, retryCount: int)
    requires retryCount >= 1
    requires forall j :: 0 <= j < retryCount ==> Classify(network(j), extract).Throw?
    ensures ChatWithGaianet(network, extract, retryCount).attempts == retryCount
    ensures ChatWithGaianet(network, extract, retryCount).result
         == Thrown(Classify(network(retryCount - 1), extract).error)
    ensures ChatWithGaianet(network, extract, retryCount).waits == seq(retryCount - 1, _ => ErrorDelay)
  {
  }

  /** Every attempt busy: exactly `retryCount` attempts, each followed by a doubling wait, then `undefined`. */
  lemma AllBusyFallsThrough(network: nat -> Attempt, extract: StreamDecoder.Extractor, retryCount: int)
    requires retryCount >= 1
    requires forall j :: 0 <= j < retryCount ==> Classify(network(j), extract).Busy?
    ensures ChatWithGaianet(network, extract, retryCount).attempts == retryCount
    ensures ChatWithGaianet(network, extract, retryCount).result == Undefined
    ensures ChatWithGaianet(network, extract, retryCount).waits == seq(retryCount, k requires 0 <= k => BusyDelay(k))
  {
    var r := ChatWithGaianet(network, extract, retryCount);
    assert r.result.Undefined? by {
      assert Classify(network(r.attempts - 1), extract).Busy?;
      assert Classify(network(retryCount - 1), extract).Busy?;
    }
    assert forall k :: 0 <= k < retryCount ==> r.waits[k] == BusyDelay(k) by {
      forall k | 0 <= k < retryCount ensures r.waits[k] == BusyDelay(k) {
        assert Classify(network(k), extract).Busy?;
      }
    }
  }

  lemma {:induction false} TranscriptSnoc(printed: nat -> seq<string>, lo: nat, hi: nat)
    requires lo <= hi
    ensures Transcript(printed, lo, hi + 1) == Transcript(printed, lo, hi) + printed(hi)
    decreases hi - lo
  {
    if lo < hi {
      TranscriptSnoc(printed, lo + 1, hi);
    }
  }

  /**
   * What stays on the console ends with the successful attempt's fragments, which
   * together make up the reply.
   */
  lemma ReplyEndsOutput(network: nat -> Attempt, extract: StreamDecoder.Extractor, retryCount: int)
    requires ChatWithGaianet(network, extract, retryCount).result.Reply?
    ensures var r := ChatWithGaianet(network, extract, retryCount);
      var out := ConsoleOutput(network, extract, retryCount);
      var last := Printed(network(r.attempts - 1), extract);
      && |last| <= |out|
      && out[|out| - |last|..] == last
      && StreamDecoder.Flatten(last) == r.result.text
  {
    var r := ChatWithGaianet(network, extract, retryCount);
    var n := r.attempts - 1;
    assert StreamDecoder.Flatten(Printed(network(n), extract)) == r.result.text by {
      assert Classify(network(n), extract).Return?;
    }
    TranscriptSnoc(Outputs(network, extract), 0, n);
  }

  /**
   * A stream that breaks after some fragments were written leaves them on the
   * console: the retry's reply is written after them, and the reply holds only the
   * retry's fragments.
   */
  lemma PartialAnswerStaysOnScreen(network: nat -> Attempt, extract: StreamDecoder.Extractor, retryCount: int,
                                   status0: int, broken: seq<string>, reason: string, status1: int, chunks: seq<string>)
    requires retryCount >= 2
    requires IsOk(status0) && network(0) == Response(status0, Body(broken, Some(reason)))
    requires IsOk(status1) && network(1) == Response(status1, Body(chunks, None))
    ensures ChatWithGaianet(network, extract, retryCount).attempts == 2
    ensures ChatWithGaianet(network, extract, retryCount).result == Reply(StreamDecoder.Decode(chunks, extract).reply)
    ensures ConsoleOutput(network, extract, retryCount)
         == StreamDecoder.Decode(broken, extract).emitted + StreamDecoder.Decode(chunks, extract).emitted
  {
    forall j | 0 <= j < 1 ensures !Classify(network(j), extract).Return? {
      assert j == 0;
      BrokenStreamThrows(status0, broken, reason, extract);
    }
    FirstSuccessWins(network, extract, retryCount, 1);
    TwoAttemptsOutput(network, extract, retryCount);
  }

  /** A stream whose reading throws fails the attempt, after its fragments were written. */
  lemma BrokenStreamThrows(status: int, chunks: seq<string>, reason: string, extract: StreamDecoder.Extractor)
    requires IsOk(status)
    ensures Classify(Response(status, Body(chunks, Some(reason))), extract) == Throw(StreamInterrupted(reason))
    ensures Printed(Response(status, Body(chunks, Some(reason))), extract) == StreamDecoder.Decode(chunks, extract).emitted
  {
  }

  lemma TwoAttemptsOutput(network: nat -> Attempt, extract: StreamDecoder.Extractor, retryCount: int)
    requires ChatWithGaianet(network, extract, retryCount).attempts == 2
    ensures ConsoleOutput(network, extract, retryCount) == Printed(network(0), extract) + Printed(network(1), extract)
  {
    var printed := Outputs(network, extract);
    assert Transcript(printed, 1, 2) == printed(1) + Transcript(printed, 2, 2);
  }

  /** A 401 is thrown inside the `try` and caught like any error: it is retried, not fatal. */
  lemma AuthFailureIsRetried(network: nat -> Attempt, extract: StreamDecoder.Extractor, retryCount: int)
    requires retryCount >= 2
    requires network(0).Response? && network(0).status == 401
    ensures ChatWithGaianet(network, extract, retryCount).attempts >= 2
    ensures ChatWithGaianet(network, extract, retryCount).waits[0] == ErrorDelay
  {
    assert Classify(network(0), extract) == Throw(AuthFailed);
  }

  /** With `retryCount` 1 there are no retries: exactly one attempt. */
  lemma SingleAttempt(network: nat -> Attempt, extract: StreamDecoder.Extractor)
    ensures ChatWithGaianet(network, extract, 1).attempts == 1
  {
  }

  lemma {:induction false} Pow2StrictlyIncreasing(i: nat, j: nat)
    requires i < j
    ensures Pow2(i) < Pow2(j)
    decreases j
  {
    if i < j - 1 {
      Pow2StrictlyIncreasing(i, j - 1);
    }
  }

  lemma {:induction false} Pow2Exceeds(n: nat)
    ensures Pow2(n) > n
  {
    if n > 0 {
      Pow2Exceeds(n - 1);
    }
  }

  /** Busy waits grow strictly with the attempt number; attempt j waits longer than j seconds. */
  lemma BusyDelayGrows(i: nat, j: nat)
    requires i < j
    ensures BusyDelay(i) < BusyDelay(j)
    ensures BusyDelay(j) > j * 1000
  {
    Pow2StrictlyIncreasing(i, j);
    Pow2Exceeds(j);
  }

  /** No constant bounds the busy delay: some attempt requests a delay longer than any given ceiling. */
  lemma BusyDelayUnbounded(ceiling: nat)
    ensures BusyDelay(ceiling / 1000 + 1) > ceiling
  {
    var j := ceiling / 1000 + 1;
    Pow2Exceeds(j);
    assert j * 1000 > ceiling;
  }

  /** Within one call, a later busy wait is always longer than an earlier one. */
  lemma BusyWaitsIncrease(network: nat -> Attempt, extract: StreamDecoder.Extractor, retryCount: int, k1: nat, k2: nat)
    requires k1 < k2 < |ChatWithGaianet(network, extract, retryCount).waits|
    requires Classify(network(k1), extract).Busy? && Classify(network(k2), extract).Busy?
    ensures ChatWithGaianet(network, extract, retryCount).waits[k1]
          < ChatWithGaianet(network, extract, retryCount).waits[k2]
  {
    BusyDelayGrows(k1, k2);
  }

  /** Four busy answers, then connections that drop. */
  function BusyThenDropped(i: nat): Attempt {
    if i < 4 then Response(429, Body([], None)) else FetchFailed("reset")
  }

  /**
   * Waits are not monotone across failure kinds: four busy answers and then
   * dropped connections request 1, 2, 4, 8 and then 5 seconds.
   */
  lemma WaitsCanShrink(extract: StreamDecoder.Extractor, retryCount: int)
    requires retryCount > 5
    ensures |ChatWithGaianet(BusyThenDropped, extract, retryCount).waits| >= 5
    ensures ChatWithGaianet(BusyThenDropped, extract, retryCount).waits[..5]
         == [1000, 2000, 4000, 8000, ErrorDelay]
  {
    var w := ChatWithGaianet(BusyThenDropped, extract, retryCount).waits;
    BusyThenDroppedWait(extract, retryCount, 0);
    BusyThenDroppedWait(extract, retryCount, 1);
    BusyThenDroppedWait(extract, retryCount, 2);
    BusyThenDroppedWait(extract, retryCount, 3);
    BusyThenDroppedWait(extract, retryCount, 4);
    assert Pow2(1) == 2 && Pow2(2) == 4 && Pow2(3) == 8;
    FivePrefix(w);
  }

  lemma FivePrefix(w: seq<nat>)
    requires |w| >= 5
    ensures w[..5] == [w[0], w[1], w[2], w[3], w[4]]
  {
  }

  /** The wait after attempt i < 5 of the busy-then-dropped network. */
  lemma BusyThenDroppedWait(extract: StreamDecoder.Extractor, retryCount: int, i: nat)
    requires retryCount > 5 && i < 5
    ensures i < |ChatWithGaianet(BusyThenDropped, extract, retryCount).waits|
    ensures ChatWithGaianet(BusyThenDropped, extract, retryCount).waits[i]
         == if i < 4 then BusyDelay(i) else ErrorDelay
  {
    BusyThenDroppedUsesAllAttempts(extract, retryCount);
    assert Classify(BusyThenDropped(i), extract) == if i < 4 then Busy else Throw(NetworkError("reset"));
  }

  lemma BusyThenDroppedUsesAllAttempts(extract: StreamDecoder.Extractor, retryCount: int)
    requires retryCount > 5
    ensures ChatWithGaianet(BusyThenDropped, extract, retryCount).attempts == retryCount
  {
    var r := ChatWithGaianet(BusyThenDropped, extract, retryCount);
    assert Classify(BusyThenDropped(retryCount - 1), extract).Throw?;
  }
}

=== FILE: stream_decoder.dfy ===
/**
 * The stream-decode block of `chatWithGaianet` (main.js:183-213): text chunks
 * arrive one by one, are appended to a carry-over buffer, the buffer is split
 * on "\n", the trailing incomplete piece is kept, and every complete
 * `data: ` line contributes the `choices[0].delta.content` of its payload.
 *
 * JSON parsing and the field lookup are the parameter `extract`: it yields
 * `None` when the payload does not parse or has no content there.
 */
module StreamDecoder {
  import opened Options
  import opened Lines

  const DataPrefix: string := "data: "
  const DoneSentinel: string := "[DONE]"

  /** The payload parser: `JSON.parse(p).choices[0]?.delta?.content`, or None when that throws or is missing. */
  type Extractor = string -> Option<string>

  /**
   * The decoder's variables during one attempt: `buffer`, `fullResponse`, and the
   * fragments written to standard output, in order.
   */
  datatype State = State(buffer: string, reply: string, emitted: seq<string>)

  const Fresh := State("", "", [])

  predicate IsDataLine(line: string) {
    |line| >= |DataPrefix| && line[..|DataPrefix|] == DataPrefix
  }

  function Payload(line: string): string
    requires IsDataLine(line)
  {
    line[|DataPrefix|..]
  }

  /** The fragment one complete line contributes, if any. */
  function Fragment(line: string, extract: Extractor): (f: Option<string>)
    ensures f.Some? ==> IsDataLine(line) && f == extract(Payload(line)) && f.value != ""
    ensures f.Some? <==>
      && IsDataLine(line)
      && Payload(line) != DoneSentinel
      && extract(Payload(line)).Some?
      && extract(Payload(line)).value != ""
  {
    if !IsDataLine(line) then None
    else if Payload(line) == DoneSentinel then None
    else match extract(Payload(line))
      case None => None
      case Some(content) => if content == "" then None else Some(content)
  }

  /** Reference: the fragments a sequence of complete lines yields, in line order. */
  function Emitted(lines: seq<string>, extract: Extractor): (frags: seq<string>)
    ensures |frags| <= |lines|
    ensures forall k :: 0 <= k < |frags| ==> frags[k] != ""
  {
    if |lines| == 0 then []
    else
      (match Fragment(lines[0], extract) case None => [] case Some(f) => [f])
      + Emitted(lines[1..], extract)
  }

  function Flatten(frags: seq<string>): string {
    if |frags| == 0 then "" else frags[0] + Flatten(frags[1..])
  }

  /** The inner `for (const line of lines)` loop, one line at a time. */
  function ProcessLines(st: State, lines: seq<string>, extract: Extractor): (st': State)
    ensures st'.buffer == st.buffer
    ensures st'.emitted == st.emitted + Emitted(lines, extract)
    ensures st'.reply == st.reply + Flatten(Emitted(lines, extract))
    decreases |lines|
  {
    if |lines| == 0 then st
    else match Fragment(lines[0], extract)
      case None =>
        assert Emitted(lines, extract) == Emitted(lines[1..], extract);
        ProcessLines(st, lines[1..], extract)
      case Some(f) =>
        var rest := Emitted(lines[1..], extract);
        assert Emitted(lines, extract) == [f] + rest;
        assert Flatten([f] + rest) == f + Flatten(rest) by {
          assert ([f] + rest)[1..] == rest;
        }
        assert (st.emitted + [f]) + rest == st.emitted + ([f] + rest);
        assert (st.reply + f) + Flatten(rest) == st.reply + (f + Flatten(rest));
        ProcessLines(State(st.buffer, st.reply + f, st.emitted + [f]), lines[1..], extract)
  }

  /**
   * One turn of `for await (const chunk of stream)`: the buffer keeps what follows
   * the last newline of `buffer + chunk`, and exactly the lines this chunk
   * completes are processed, in order.
   */
  function Step(st: State, chunk: string, extract: Extractor): (st': State)
    ensures st'.buffer == AfterLastNewline(st.buffer + chunk)
    ensures st'.emitted == st.emitted + Emitted(CompleteLines(st.buffer + chunk), extract)
    ensures st'.reply == st.reply + Flatten(Emitted(CompleteLines(st.buffer + chunk), extract))
  {
    var lines := Split(st.buffer + chunk);
    LastSplit(st.buffer + chunk);
    ProcessLines(State(Last(lines), st.reply, st.emitted), Init(lines), extract)
  }

  function Concat(chunks: seq<string>): string {
    if |chunks| == 0 then "" else Concat(chunks[..|chunks| - 1]) + chunks[|chunks| - 1]
  }

  /**
   * The decoder after the given chunks, starting from an empty buffer and reply:
   * the buffer is the text after the last newline of everything received, and
   * every complete line has been processed once, in order.
   */
  function Decode(chunks: seq<string>, extract: Extractor): (st: State)
    ensures Received(st, Concat(chunks), extract)
    decreases |chunks|
  {
    if |chunks| == 0 then
      assert Split("") == [""];
      Fresh
    else
      var prefix := chunks[..|chunks| - 1];
      var prev := Decode(prefix, extract);
      StepConsistent(prev, Concat(prefix), chunks[|chunks| - 1], extract);
      Step(prev, chunks[|chunks| - 1], extract)
  }

  /** The lines of a text that a newline has completed. */
  function CompleteLines(text: string): seq<string> {
    Init(Split(text))
  }

  // ---------------------------------------------------------------------------
  // Lemmas about the reference definitions

  lemma {:induction false} EmittedAppend(a: seq<string>, b: seq<string>, extract: Extractor)
    ensures Emitted(a + b, extract) == Emitted(a, extract) + Emitted(b, extract)
    decreases |a|
  {
    if |a| == 0 {
      assert a + b == b;
    } else {
      assert (a + b)[0] == a[0];
      assert (a + b)[1..] == a[1..] + b;
      EmittedAppend(a[1..], b, extract);
    }
  }

  lemma {:induction false} FlattenAppend(a: seq<string>, b: seq<string>)
    ensures Flatten(a + b) == Flatten(a) + Flatten(b)
    decreases |a|
  {
    if |a| == 0 {
      assert a + b == b;
    } else {
      assert (a + b)[1..] == a[1..] + b;
      FlattenAppend(a[1..], b);
    }
  }

  /**
   * The decoder's state after receiving `text`: the buffer holds what follows its
   * last newline, and the output and reply are the fragments of its complete lines.
   */
  ghost predicate Received(st: State, text: string, extract: Extractor) {
    && st.buffer == AfterLastNewline(text)
    && st.emitted == Emitted(CompleteLines(text), extract)
    && st.reply == Flatten(st.emitted)
  }

  /** One chunk keeps the decoder in step with the text received so far. */
  lemma StepConsistent(st: State, text: string, chunk: string, extract: Extractor)
    requires Received(st, text, extract)
    ensures Received(Step(st, chunk, extract), text + chunk, extract)
  {
    var xs, ys := Split(text), Split(chunk);
    var seam := Split(st.buffer + chunk);
    LastSplit(text);
    SplitAppend(text, chunk);
    SplitAppend(st.buffer, chunk);
    SplitNoNewline(st.buffer);
    assert seam == Glue([Last(xs)], ys);
    InitGlue(xs, ys);
    var st' := Step(st, chunk, extract);
    EmittedAppend(Init(xs), Init(seam), extract);
    FlattenAppend(st.emitted, Emitted(Init(seam), extract));
    assert st'.emitted == Emitted(CompleteLines(text + chunk), extract);
    LastSplit(text + chunk);
  }

  // ---------------------------------------------------------------------------
  // Properties of the decoder

  /**
   * Chunk-boundary invariance: however the same text is cut into chunks, the
   * decoder ends in the same state, with the same reply.
   */
  lemma ChunkBoundaryInvariance(c1: seq<string>, c2: seq<string>, extract: Extractor)
    requires Concat(c1) == Concat(c2)
    ensures Decode(c1, extract) == Decode(c2, extract)
  {
  }

  /**
   * A trailing piece without a newline is never processed, even when the stream
   * ends there: appending it changes the buffer only.
   */
  lemma TrailingPieceIgnored(chunks: seq<string>, tail: string, extract: Extractor)
    requires NL !in tail
    ensures Decode(chunks + [tail], extract).emitted == Decode(chunks, extract).emitted
    ensures Decode(chunks + [tail], extract).reply == Decode(chunks, extract).reply
  {
    var text := Concat(chunks);
    assert (chunks + [tail])[..|chunks|] == chunks;
    assert Concat(chunks + [tail]) == text + tail;
    assert CompleteLines(text + tail) == CompleteLines(text) by {
      SplitAppend(text, tail);
      SplitNoNewline(tail);
      assert Init(Glue(Split(text), [tail])) == Init(Split(text));
    }
  }

  /** The text of a stream that sends each of `lines` followed by a newline. */
  function Stream(lines: seq<string>): string {
    if |lines| == 0 then "" else lines[0] + [NL] + Stream(lines[1..])
  }

  lemma {:induction false} StreamSplit(lines: seq<string>)
    requires forall k :: 0 <= k < |lines| ==> NL !in lines[k]
    ensures CompleteLines(Stream(lines)) == lines
    decreases |lines|
  {
    if |lines| == 0 {
      assert Split("") == [""];
    } else {
      StreamSplit(lines[1..]);
      var rest := Stream(lines[1..]);
      SplitLine(lines[0], rest);
      assert Init([lines[0]] + Split(rest)) == [lines[0]] + Init(Split(rest));
      assert [lines[0]] + lines[1..] == lines;
    }
  }

  /** Whatever the chunking of a stream of newline-terminated lines, the decoder emits exactly their fragments. */
  lemma DecodeStream(chunks: seq<string>, lines: seq<string>, extract: Extractor)
    requires forall k :: 0 <= k < |lines| ==> NL !in lines[k]
    requires Concat(chunks) == Stream(lines)
    ensures Decode(chunks, extract).emitted == Emitted(lines, extract)
    ensures Decode(chunks, extract).reply == Flatten(Emitted(lines, extract))
  {
    StreamSplit(lines);
  }

  /**
   * Fault isolation: a line that yields no fragment (a malformed payload, a payload
   * without content, `[DONE]`, a non-data line) changes nothing about the fragments
   * of the lines around it.
   */
  lemma SkippedLineIsolated(before: seq<string>, line: string, after: seq<string>, extract: Extractor)
    requires Fragment(line, extract).None?
    ensures Emitted(before + [line] + after, extract) == Emitted(before + after, extract)
  {
    EmittedAppend(before + [line], after, extract);
    EmittedAppend(before, [line], extract);
    EmittedAppend(before, after, extract);
  }

  /** A malformed `data: ` payload yields no fragment. */
  lemma MalformedPayloadSkipped(line: string, extract: Extractor)
    requires IsDataLine(line) && extract(Payload(line)).None?
    ensures Fragment(line, extract).None?
  {
  }

  /** `[DONE]` is skipped and does not end decoding: the lines after it still count. */
  lemma DoneDoesNotStop(before: seq<string>, after: seq<string>, extract: Extractor)
    ensures Emitted(before + [DataPrefix + DoneSentinel] + after, extract)
         == Emitted(before, extract) + Emitted(after, extract)
  {
    var done := DataPrefix + DoneSentinel;
    assert IsDataLine(done) && Payload(done) == DoneSentinel;
    SkippedLineIsolated(before, done, after, extract);
    EmittedAppend(before, after, extract);
  }

  /** A line that is not a `data: ` line yields no fragment, whatever it holds. */
  lemma NonDataLineIgnored(line: string, extract: Extractor)
    requires !IsDataLine(line)
    ensures Fragment(line, extract).None?
  {
  }

  /** A single line's fragment is exactly its non-empty content. */
  lemma EmittedSingle(line: string, extract: Extractor)
    ensures Emitted([line], extract)
         == (if Fragment(line, extract).Some? then [Fragment(line, extract).value] else [])
  {
    assert [line][1..] == [];
  }

  /**
   * The scenario of a stream delivering a content line and then `[DONE]`: the reply
   * is the content, however the two lines are cut into chunks.
   */
  lemma ParisScenario(chunks: seq<string>, json: string, extract: Extractor)
    requires extract(json) == Some("Paris")
    requires json != DoneSentinel && NL !in json
    requires Concat(chunks) == DataPrefix + json + "\n" + DataPrefix + DoneSentinel + "\n"
    ensures Decode(chunks, extract).reply == "Paris"
  {
    var l1, l2 := DataPrefix + json, DataPrefix + DoneSentinel;
    var lines := [l1, l2];
    assert Decode(chunks, extract).reply == Flatten(Emitted(lines, extract)) by {
      ParisText(json);
      assert forall k :: 0 <= k < |lines| ==> NL !in lines[k] by {
        DataLineNoNewline(json);
      }
      DecodeStream(chunks, lines, extract);
    }
    assert Emitted(lines, extract) == ["Paris"] by {
      ParisLines(json, extract);
    }
    assert Flatten(["Paris"]) == "Paris";
  }

  lemma DataLineNoNewline(payload: string)
    requires NL !in payload
    ensures NL !in DataPrefix + payload
  {
    var l := DataPrefix + payload;
    forall k | 0 <= k < |l| ensures l[k] != NL {
      if k >= |DataPrefix| { assert l[k] == payload[k - |DataPrefix|]; }
    }
  }

  lemma ParisText(json: string)
    ensures Stream([DataPrefix + json, DataPrefix + DoneSentinel])
         == DataPrefix + json + "\n" + DataPrefix + DoneSentinel + "\n"
  {
    var l1, l2 := DataPrefix + json, DataPrefix + DoneSentinel;
    TwoLineStream(l1, l2);
    assert l1 + "\n" + l2 == DataPrefix + json + "\n" + DataPrefix + DoneSentinel;
  }

  lemma TwoLineStream(l1: string, l2: string)
    ensures Stream([l1, l2]) == l1 + "\n" + l2 + "\n"
  {
    assert [l1, l2][1..] == [l2] && [l2][1..] == [];
    assert Stream([l2]) == l2 + [NL] + "";
  }

  lemma ParisLines(json: string, extract: Extractor)
    requires extract(json) == Some("Paris") && json != DoneSentinel
    ensures Emitted([DataPrefix + json, DataPrefix + DoneSentinel], extract) == ["Paris"]
  {
    var l1, l2 := DataPrefix + json, DataPrefix + DoneSentinel;
    assert l1[..|DataPrefix|] == DataPrefix && Payload(l1) == json;
    assert l2[..|DataPrefix|] == DataPrefix && Payload(l2) == DoneSentinel;
    EmittedAppend([l1], [l2], extract);
    EmittedSingle(l1, extract);
    EmittedSingle(l2, extract);
    assert [l1] + [l2] == [l1, l2];
  }
}
